=== FILE: README.md ===
# Feature-flag router, modelled in Dafny

This project models the request handling of a small feature-flag dashboard
service (`backend/routes/flags.js`). The service keeps an ordered collection
of flag records (`key`, `description`, `enabled`, `lastUsedAt`) in one JSON
file. Every request reads the whole file. Every toggle or use that finds its
key changes one record in memory and writes the whole file back; listing and
the not-found paths write nothing. There are three routes:

- `GET /` lists the collection.
- `POST /:key/toggle` negates `enabled` of the first record with that key.
- `POST /:key/use` stamps `lastUsedAt` of the first record with that key.

When they find the key, the two mutating routes also open a tracing span,
give it one status code (1 for success, 2 for error) and end it. Their
not-found paths (`backend/routes/flags.js:53-55`, `93-95`) and their
generic-500 catch paths (`78-80`, `115-117`) open no span.

Three abstractions make each handler a pure function:

- The file is an abstract value `FileState`. It is `Unreadable`, `NotJson`
  (unparseable), or `Holds` a parsed document. The document is either an
  array of flag records or some other JSON value.
- Whether `fs.writeFile` succeeds is a boolean input, `writeOk`.
- "Now" is an opaque `Timestamp` parameter.

A handler's `Outcome` records four things: the HTTP response, the file
afterwards, the collection handed to `writeFlags` (if any), and the events
issued on the span.

Modules:

- `Wrappers` (wrappers.dfy): `Option`.
- `Flags` (flags.dfy): the record, the first-match lookup and facts about it.
- `FlagStore` (store.dfy): `readFlags` and `writeFlags`.
- `Telemetry` (telemetry.dfy): span events and the "status set exactly once" shape.
- `FlagRoutes` (routes.dfy): the three handlers.
- `RouteProperties` (properties.dfy): properties relating several calls.

Behaviour of the code worth knowing:

- The list route's catch branch (`backend/routes/flags.js:39-41`) is
  unreachable, because `readFlags` never throws. `ListFlags` always answers
  200, and an unreadable or unparseable file lists as `[]`.
- Loading and re-saving leaves a readable, parseable file as it was
  (`FlagStore.ReloadSaveIsNoOp` states it for flag arrays, the only documents
  the handlers write). On an unreadable or unparseable file it would
  overwrite the file with `[]`
  (`FlagStore.ReloadSaveClobbersUnreadable`). The handlers never do this: an
  empty array matches no key, so they answer 404 and skip the write
  (`RouteProperties.UnreadableFileIsNeverOverwritten`).
- The use route stamps exactly the time it reads, so the model stamps exactly `now`.
- Among the documents the model represents, the generic 500 of the toggle and
  use routes fires only when the parsed document is not an array, because then
  `flags.find` throws. The model gives that case (`OtherJson`) that response.

## Model

| member | source | states |
|---|---|---|
| `FlagStore.ReadFlags` | backend/routes/flags.js:11-19 | a readable, parseable file yields its document; the result is the empty array exactly when reading or parsing failed or the file really holds `[]`, so failure is indistinguishable from emptiness |
| `FlagStore.WriteFlags` | backend/routes/flags.js:23-31 | reports true exactly when the write goes through, after which reading the file yields the written collection; on false the file keeps its old contents |
| `FlagStore.WriteThenRead` | backend/routes/flags.js:11-31 | reading back after a successful write yields exactly the collection written |
| `FlagStore.ReloadSaveIsNoOp` | backend/routes/flags.js:11-31 | saving what was loaded leaves a file holding a flag array unchanged |
| `FlagStore.ReloadSaveClobbersUnreadable` | backend/routes/flags.js:11-31 | saving what was loaded overwrites an unreadable or unparseable file with an empty array, so the round trip is not a no-op there |
| `Flags.FirstMatch` | backend/routes/flags.js:51 | `find` by key returns a position whose record carries the key and before which none does; it finds nothing exactly when no record carries the key |
| `Flags.FirstMatchIsUnique` | backend/routes/flags.js:51 | the first matching position is unique: any position with the first-match property is what the lookup returns |
| `Flags.UniqueKeysFirstMatch` | backend/routes/flags.js:51 | when keys are unique, any record carrying the key is the one the lookup returns |
| `Flags.FirstMatchByKeys` | backend/routes/flags.js:51 | the lookup depends only on the key sequence, so changing other fields never moves the match |
| `Flags.ReplaceKeepsKeys` | backend/routes/flags.js:58 | replacing one record by one with the same key keeps every key in place and keeps keys unique |
| `Telemetry.StatusSetOnlyOnce` | backend/routes/flags.js:68-76 | in a span closed once, the only status event is the one just before the end: the status is set exactly once |
| `Telemetry.Span` | backend/routes/flags.js:68-76 | a handler's span opens first and only once, gets exactly one status, which is the given code and message, and ends right after it |
| `FlagRoutes.ListFlags` | backend/routes/flags.js:35-42 | listing always answers 200; a readable, parseable file is listed as its parsed document, and an unreadable or unparseable one as the empty array |
| `FlagRoutes.ToggleFlag` | backend/routes/flags.js:46-82 | answers 200, 404 or 500; 404 exactly when the file reads as a flag array with no record carrying the key; 200 exactly when the key is present and the save succeeds; writes exactly when the key is present; without a write the file and span are untouched; a span, when opened, gets exactly one status, and that status is success exactly when the answer is 200; the file changes only on a 200 |
| `FlagRoutes.UseFlag` | backend/routes/flags.js:86-119 | answers 200, 404 or 500; 404 exactly when the file reads as a flag array with no record carrying the key; 200 exactly when it is present, whatever the save did; writes exactly when the key is present; a span, when opened, gets exactly one status, the success code; the file changes only if the write went through |
| `RouteProperties.MissingKeyChangesNothing` | backend/routes/flags.js:50-95 | toggle and use of a key no record carries answer 404 "Flag not found", write nothing, open no span and leave the file as it was |
| `RouteProperties.UnreadableFileIsNeverOverwritten` | backend/routes/flags.js:50-95 | on an unreadable or unparseable file toggle and use answer 404 and leave the file alone |
| `RouteProperties.ListingHidesReadFailure` | backend/routes/flags.js:35-41 | listing an unreadable or unparseable file gives the same response as listing an empty one |
| `RouteProperties.ToggleNegatesFirstMatch` | backend/routes/flags.js:50-58 | toggle negates `enabled` of the first record with the key and keeps its key, description and `lastUsedAt`, every other record, the length and the order |
| `RouteProperties.ToggleSaved` | backend/routes/flags.js:61-71 | on a successful save toggle answers 200 with the updated record, the file then holds the updated collection, and the span reports the new value and ends with code 1 |
| `RouteProperties.ToggleSaveFailed` | backend/routes/flags.js:61-76 | on a failed save toggle answers 500 "Could not save flag", the file keeps its old contents, and the span reports the unsaved new value and ends with code 2 and "Failed to save flag" |
| `RouteProperties.ToggleVisibleIffSaved` | backend/routes/flags.js:58-76 | a listing after the toggle shows the flipped `enabled` if and only if the save succeeded |
| `RouteProperties.ToggleTwiceRestores` | backend/routes/flags.js:58-71 | two successful toggles of the same key restore the original file, and the second answers with the original record |
| `RouteProperties.UseStampsFirstMatch` | backend/routes/flags.js:90-113 | use sets `lastUsedAt` of the first record with the key to `now` and keeps its `enabled`, key and description, every other record, the length and the order; it answers 200 with "Flag usage recorded" and that record; the span reports the flag's `enabled` |
| `RouteProperties.UseIgnoresSaveResult` | backend/routes/flags.js:107-113 | use's response, written collection and span do not depend on whether the save succeeded; a failed save leaves the file unchanged and a successful one stores what was written |
| `RouteProperties.SaveFailureMappingDiffers` | backend/routes/flags.js:66-113 | when the save fails, toggle answers 500 and ends its span with code 2, while use answers 200 and ends its span with code 1 |
| `RouteProperties.UseAtSameTimeIsIdempotent` | backend/routes/flags.js:90-108 | recording a use twice with the same time stores the same file as recording it once |
| `RouteProperties.RoutesKeepKeys` | backend/routes/flags.js:46-119 | toggle and use never add, remove, reorder or re-key records, so unique keys stay unique in the file afterwards |
| `RouteProperties.DarkModeScenario` | backend/routes/flags.js:46-113 | on a single disabled "dark-mode" flag, toggle answers 200 with it enabled and a listing shows it; toggling "missing-flag" answers 404 and changes nothing; use answers 200 and a listing shows the stamp |

## Left out

- File I/O and JSON text: the file's bytes, `JSON.parse`, `JSON.stringify` and its pretty-printing are abstracted into `FileState`. A successful write is taken to store the collection exactly.
- A write that fails part-way and leaves a truncated file is not modelled. A failed write leaves the file unchanged.
- A parsed array whose elements are not flag records (for example `null`, which makes `f.key` throw) is not modelled. A document is either an array of flag records or a non-array JSON value.
- The error logging to the console is not modelled, because it has no effect on responses or the file.
- The list route's 500 branch "Could not load flags" is not modelled, because `readFlags` never throws and the branch is unreachable.
- Tracer internals (`backend/otel/tracer.js`) are not modelled. The SDK, exporters and the fixed `service.name` and `env` attributes are outside the model; `feature.flag.name` is the `flagKey` of the `Start` event. A span is the sequence of events the handler issues.
- The random `user_id` span attribute of the use route is not modelled, because it is randomness with no effect on the outcome.
- The ISO-8601 rendering of `new Date()` is not modelled. The time is an opaque `Timestamp` parameter.
- Concurrent requests and the lost-update race between them are not modelled. Requests are handled one at a time.
- The Express wiring, static files and the health probe (`backend/index.js`) are not modelled, because they are plumbing with no logic.
- The browser dashboard (`public/app.js`) is not modelled, because it is DOM rendering and `fetch` calls.
- Response serialisation by Express is not modelled. A response is a status and a structured body.

=== FILE: flags.dfy ===
/**
 The flag record and the lookup the request handlers perform on the flag
 collection: `Array.prototype.find` on the key, which yields the FIRST
 record whose key matches.
 */
module Flags {
  import opened Wrappers

  /** An opaque point in time, rendered by the service as an ISO-8601 string. */
  datatype Timestamp = Timestamp(iso: string)

  /** One feature flag as stored in the flag file. */
  datatype Flag = Flag(key: string, description: string, enabled: bool, lastUsedAt: Option<Timestamp>)

  /** `i` is the position `find` stops at: its key matches and no earlier one does. */
  ghost predicate IsFirstMatch(flags: seq<Flag>, key: string, i: int)
  {
    && 0 <= i < |flags|
    && flags[i].key == key
    && forall j :: 0 <= j < i ==> flags[j].key != key
  }

  /** Some record of the collection carries `key`. */
  ghost predicate HasKey(flags: seq<Flag>, key: string)
  {
    exists j :: 0 <= j < |flags| && flags[j].key == key
  }

  /** No two records share a key (keys are meant to be unique; the handlers do not enforce it). */
  ghost predicate UniqueKeys(flags: seq<Flag>)
  {
    forall i, j :: 0 <= i < j < |flags| ==> flags[i].key != flags[j].key
  }

  /** Two collections list the same keys in the same order. */
  ghost predicate SameKeys(a: seq<Flag>, b: seq<Flag>)
  {
    |a| == |b| && forall i :: 0 <= i < |a| ==> a[i].key == b[i].key
  }

  /** `after` differs from `before` at most at position `i`: same length, same order, same other records. */
  ghost predicate OnlyAt(before: seq<Flag>, after: seq<Flag>, i: int)
  {
    && |before| == |after|
    && 0 <= i < |before|
    && forall j :: 0 <= j < |before| && j != i ==> after[j] == before[j]
  }

  /** The index `flags.find(f => f.key === key)` returns the record of, scanning from the front. */
  function FirstMatch(flags: seq<Flag>, key: string): (r: Option<nat>)
    ensures r.Some? ==> IsFirstMatch(flags, key, r.value)
    ensures r.None? <==> !HasKey(flags, key)
  {
    if |flags| == 0 then None
    else if flags[0].key == key then Some(0)
    else
      match FirstMatch(flags[1..], key)
      case None => None
      case Some(i) => Some(i + 1)
  }

  /** The record with `enabled` negated, as the toggle handler does in place. */
  function Toggled(f: Flag): Flag
  {
    f.(enabled := !f.enabled)
  }

  /** The record stamped with a last-use time, as the use handler does in place. */
  function Stamped(f: Flag, now: Timestamp): Flag
  {
    f.(lastUsedAt := Some(now))
  }

  /** The first match is the only possible answer: a position that satisfies IsFirstMatch is unique. */
  lemma FirstMatchIsUnique(flags: seq<Flag>, key: string, i: int)
    requires IsFirstMatch(flags, key, i)
    ensures FirstMatch(flags, key) == Some(i)
  {
  }

  /** With unique keys, any record carrying the key is the one `find` returns. */
  lemma UniqueKeysFirstMatch(flags: seq<Flag>, key: string, j: int)
    requires UniqueKeys(flags)
    requires 0 <= j < |flags| && flags[j].key == key
    ensures FirstMatch(flags, key) == Some(j)
  {
  }

  /** Lookup depends on the keys alone: rewriting other fields never moves the match. */
  lemma FirstMatchByKeys(a: seq<Flag>, b: seq<Flag>, key: string)
    requires SameKeys(a, b)
    ensures FirstMatch(a, key) == FirstMatch(b, key)
  {
  }

  /** Replacing one record by another with the same key keeps the key sequence and its uniqueness. */
  lemma ReplaceKeepsKeys(flags: seq<Flag>, i: int, g: Flag)
    requires 0 <= i < |flags| && g.key == flags[i].key
    ensures SameKeys(flags, flags[i := g])
    ensures UniqueKeys(flags) ==> UniqueKeys(flags[i := g])
  {
  }
}

=== FILE: properties.dfy ===
/**
 Properties of the flag router that relate several calls or spell out what a
 single call changes: lookup by first match, single-field updates, the
 not-found path, toggle's involution, and how toggle and use map a failed
 save differently.
 */
module RouteProperties {
  import opened Wrappers
  import opened Flags
  import opened FlagStore
  import opened Telemetry
  import opened FlagRoutes

  /** A key no record carries: 404 from both mutating routes, nothing written, no span, file untouched. */
  lemma MissingKeyChangesNothing(file: FileState, key: string, now: Timestamp, writeOk: bool)
    requires Misses(file, key)
    ensures ToggleFlag(file, key, writeOk) == Outcome(Response(404, ErrorJson(NotFoundMessage)), file, None, [])
    ensures UseFlag(file, key, now, writeOk) == Outcome(Response(404, ErrorJson(NotFoundMessage)), file, None, [])
  {
  }

  /**
   An unreadable or unparseable file reads as an empty array, so toggle and
   use answer 404 and never overwrite it.
   */
  lemma UnreadableFileIsNeverOverwritten(file: FileState, key: string, now: Timestamp, writeOk: bool)
    requires !file.Holds?
    ensures ToggleFlag(file, key, writeOk).response.status == 404
    ensures ToggleFlag(file, key, writeOk).file == file
    ensures UseFlag(file, key, now, writeOk).response.status == 404
    ensures UseFlag(file, key, now, writeOk).file == file
  {
  }

  /** Listing cannot tell an unreadable or unparseable file from an empty one. */
  lemma ListingHidesReadFailure(file: FileState)
    requires !file.Holds?
    ensures ListFlags(file) == ListFlags(Holds(FlagArray([])))
  {
  }

  /**
   Toggle rewrites exactly the first record with the key: its `enabled` is
   negated, its other fields kept, every other record and the order kept.
   */
  lemma ToggleNegatesFirstMatch(file: FileState, key: string, writeOk: bool, i: int)
    requires ReadFlags(file).FlagArray? && IsFirstMatch(ReadFlags(file).flags, key, i)
    ensures ToggleFlag(file, key, writeOk).written.Some?
    ensures var before := ReadFlags(file).flags;
            var after := ToggleFlag(file, key, writeOk).written.value;
            && OnlyAt(before, after, i)
            && after[i].enabled == !before[i].enabled
            && after[i].key == before[i].key
            && after[i].description == before[i].description
            && after[i].lastUsedAt == before[i].lastUsedAt
  {
  }

  /**
   A toggle whose save succeeds answers 200 with the toggled record, makes
   the written collection the file's contents, and closes its span with the
   success code; the span reports the new value of `enabled`.
   */
  lemma ToggleSaved(file: FileState, key: string)
    requires Finds(file, key)
    ensures var flags := ReadFlags(file).flags;
            var i := FirstMatch(flags, key).value;
            var o := ToggleFlag(file, key, true);
            && o.response == Response(200, FlagJson(o.written.value[i]))
            && ReadFlags(o.file) == FlagArray(o.written.value)
            && o.span[0] == Start(ToggleSpanName, key, NewValueAttribute, !flags[i].enabled)
            && o.span[|o.span| - 2] == SetStatus(StatusOk, None)
  {
  }

  /**
   A toggle whose save fails answers 500, leaves the file as it was, and
   closes its span with the error code; the span still reports the
   negated value that was never stored.
   */
  lemma ToggleSaveFailed(file: FileState, key: string)
    requires Finds(file, key)
    ensures var flags := ReadFlags(file).flags;
            var i := FirstMatch(flags, key).value;
            var o := ToggleFlag(file, key, false);
            && o.response == Response(500, ErrorJson(SaveFailedMessage))
            && o.file == file
            && o.span[0] == Start(ToggleSpanName, key, NewValueAttribute, !flags[i].enabled)
            && o.span[|o.span| - 2] == SetStatus(StatusError, Some(SpanSaveFailedMessage))
  {
  }

  /** A following listing shows the flip exactly when the save succeeded. */
  lemma ToggleVisibleIffSaved(file: FileState, key: string, writeOk: bool)
    requires Finds(file, key)
    ensures var before := ReadFlags(file).flags;
            var i := FirstMatch(before, key).value;
            var after := ListFlags(ToggleFlag(file, key, writeOk).file).body.doc;
            && after.FlagArray?
            && |after.flags| == |before|
            && (after.flags[i].enabled != before[i].enabled <==> writeOk)
  {
  }

  /**
   Two successful toggles of the same key restore the file, and the second
   answers with the record as it was originally.
   */
  lemma ToggleTwiceRestores(file: FileState, key: string)
    requires Finds(file, key)
    ensures var o1 := ToggleFlag(file, key, true);
            var o2 := ToggleFlag(o1.file, key, true);
            && o2.file == file
            && o2.response == Response(200, FlagJson(ReadFlags(file).flags[FirstMatch(ReadFlags(file).flags, key).value]))
  {
    var flags := ReadFlags(file).flags;
    var i := FirstMatch(flags, key).value;
    var updated := flags[i := Toggled(flags[i])];
    ReplaceKeepsKeys(flags, i, Toggled(flags[i]));
    FirstMatchByKeys(flags, updated, key);
    assert updated[i := Toggled(updated[i])] == flags;
  }

  /**
   Use rewrites exactly the first record with the key: `lastUsedAt` becomes
   `now`, its other fields are kept, every other record and the order kept.
   The response carries that record and the span reports its `enabled`.
   */
  lemma UseStampsFirstMatch(file: FileState, key: string, now: Timestamp, writeOk: bool, i: int)
    requires ReadFlags(file).FlagArray? && IsFirstMatch(ReadFlags(file).flags, key, i)
    ensures UseFlag(file, key, now, writeOk).written.Some?
    ensures var before := ReadFlags(file).flags;
            var o := UseFlag(file, key, now, writeOk);
            var after := o.written.value;
            && OnlyAt(before, after, i)
            && after[i].lastUsedAt == Some(now)
            && after[i].enabled == before[i].enabled
            && after[i].key == before[i].key
            && after[i].description == before[i].description
            && o.response == Response(200, UsageJson(UsageRecordedMessage, after[i]))
            && o.span[0] == Start(UseSpanName, key, ValueAttribute, before[i].enabled)
  {
  }

  /**
   Use ignores what `writeFlags` reported: the response, the written
   collection and the span are the same either way; only the file differs,
   and a failed save leaves it as it was.
   */
  lemma UseIgnoresSaveResult(file: FileState, key: string, now: Timestamp)
    requires Finds(file, key)
    ensures UseFlag(file, key, now, true).response == UseFlag(file, key, now, false).response
    ensures UseFlag(file, key, now, true).written == UseFlag(file, key, now, false).written
    ensures UseFlag(file, key, now, true).span == UseFlag(file, key, now, false).span
    ensures UseFlag(file, key, now, false).file == file
    ensures ReadFlags(UseFlag(file, key, now, true).file) == FlagArray(UseFlag(file, key, now, true).written.value)
  {
  }

  /** On a failed save toggle reports 500 but use reports 200. */
  lemma SaveFailureMappingDiffers(file: FileState, key: string, now: Timestamp)
    requires Finds(file, key)
    ensures ToggleFlag(file, key, false).response.status == 500
    ensures UseFlag(file, key, now, false).response.status == 200
    ensures FinalStatus(ToggleFlag(file, key, false).span) == StatusError
    ensures FinalStatus(UseFlag(file, key, now, false).span) == StatusOk
  {
  }

  /** Recording a use twice at the same time stores what recording it once did. */
  lemma UseAtSameTimeIsIdempotent(file: FileState, key: string, now: Timestamp)
    requires Finds(file, key)
    ensures var o1 := UseFlag(file, key, now, true);
            UseFlag(o1.file, key, now, true).file == o1.file
  {
    var flags := ReadFlags(file).flags;
    var i := FirstMatch(flags, key).value;
    var updated := flags[i := Stamped(flags[i], now)];
    ReplaceKeepsKeys(flags, i, Stamped(flags[i], now));
    FirstMatchByKeys(flags, updated, key);
    assert updated[i := Stamped(updated[i], now)] == updated;
  }

  /**
   Neither mutating route adds, removes, reorders or re-keys records, so
   unique keys stay unique in whatever the file holds afterwards.
   */
  lemma RoutesKeepKeys(file: FileState, key: string, now: Timestamp, writeOk: bool)
    requires ReadFlags(file).FlagArray?
    ensures ToggleFlag(file, key, writeOk).written.Some? ==>
              SameKeys(ReadFlags(file).flags, ToggleFlag(file, key, writeOk).written.value)
    ensures UseFlag(file, key, now, writeOk).written.Some? ==>
              SameKeys(ReadFlags(file).flags, UseFlag(file, key, now, writeOk).written.value)
    ensures UniqueKeys(ReadFlags(file).flags) ==>
              UniqueKeys(ReadFlags(ToggleFlag(file, key, writeOk).file).flags)
              && UniqueKeys(ReadFlags(UseFlag(file, key, now, writeOk).file).flags)
  {
  }

  /**
   A worked example: one disabled flag "dark-mode". Toggling it answers 200
   with it enabled and a listing then shows it enabled; toggling an unknown
   key answers 404; using it answers 200 and a listing shows the stamp.
   */
  lemma DarkModeScenario(now: Timestamp)
    ensures var flag := Flag("dark-mode", "d", false, None);
            var file := Holds(FlagArray([flag]));
            var toggled := ToggleFlag(file, "dark-mode", true);
            var used := UseFlag(file, "dark-mode", now, true);
            && toggled.response == Response(200, FlagJson(Flag("dark-mode", "d", true, None)))
            && ListFlags(toggled.file).body == Json(FlagArray([Flag("dark-mode", "d", true, None)]))
            && ToggleFlag(file, "missing-flag", true).response.status == 404
            && ToggleFlag(file, "missing-flag", true).file == file
            && used.response == Response(200, UsageJson(UsageRecordedMessage, Flag("dark-mode", "d", false, Some(now))))
            && ListFlags(used.file).body == Json(FlagArray([Flag("dark-mode", "d", false, Some(now))]))
  {
  }
}

=== FILE: routes.dfy ===
/**
 The three request handlers of the flag router: list, toggle and use. Each
 is a pure function of the flag file, the key from the path, whether the
 write goes through and (for use) the current time, yielding the HTTP
 response, the file afterwards, the collection handed to `writeFlags` (if
 any) and the events issued on the tracing span (if one was opened).
 */
module FlagRoutes {
  import opened Wrappers
  import opened Flags
  import opened FlagStore
  import opened Telemetry

  const NotFoundMessage := "Flag not found"
  const SaveFailedMessage := "Could not save flag"
  const InternalErrorMessage := "Internal server error"
  const UsageRecordedMessage := "Flag usage recorded"
  const SpanSaveFailedMessage := "Failed to save flag"
  const ToggleSpanName := "feature.flag.toggle"
  const UseSpanName := "feature.flag.use"
  const NewValueAttribute := "feature.flag.new_value"
  const ValueAttribute := "feature.flag.value"

  /** The JSON body of a response. */
  datatype Body =
    | Json(doc: Document)
    | FlagJson(flag: Flag)
    | UsageJson(message: string, flag: Flag)
    | ErrorJson(error: string)

  datatype Response = Response(status: int, body: Body)

  /** Everything a request does: its response, the file afterwards, what it wrote, its span. */
  datatype Outcome = Outcome(response: Response, file: FileState, written: Option<seq<Flag>>, span: seq<SpanEvent>)

  /** The file reads as a flag array in which some record carries `key`. */
  ghost predicate Finds(file: FileState, key: string)
  {
    ReadFlags(file).FlagArray? && HasKey(ReadFlags(file).flags, key)
  }

  /** The file reads as a flag array in which no record carries `key`. */
  ghost predicate Misses(file: FileState, key: string)
  {
    ReadFlags(file).FlagArray? && !HasKey(ReadFlags(file).flags, key)
  }

  /** `GET /`: 200 with whatever `readFlags` produced; it has no failing path. */
  function ListFlags(file: FileState): (r: Response)
    ensures r.status == 200
    ensures file.Holds? ==> r.body == Json(file.doc)
    ensures !file.Holds? ==> r.body == Json(FlagArray([]))
  {
    Response(200, Json(ReadFlags(file)))
  }

  /**
   `POST /:key/toggle`: negate `enabled` of the first record with the key,
   open a span reporting the new value, save, and answer by the save's result.
   A parsed document that is not an array makes `find` throw: generic 500.
   */
  function ToggleFlag(file: FileState, key: string, writeOk: bool): (o: Outcome)
    ensures o.response.status in {200, 404, 500}
    ensures o.response.status == 404 <==> Misses(file, key)
    ensures o.response.status == 200 <==> Finds(file, key) && writeOk
    ensures o.written.Some? <==> Finds(file, key)
    ensures o.written.None? ==> o.file == file && o.span == []
    ensures o.written.Some? ==> ClosedOnce(o.span)
    ensures o.written.Some? ==> (FinalStatus(o.span) == StatusOk <==> o.response.status == 200)
    ensures o.file != file ==> o.response.status == 200
  {
    match ReadFlags(file)
    case OtherJson(_) => Outcome(Response(500, ErrorJson(InternalErrorMessage)), file, None, [])
    case FlagArray(flags) =>
      match FirstMatch(flags, key)
      case None => Outcome(Response(404, ErrorJson(NotFoundMessage)), file, None, [])
      case Some(i) =>
        var flag := Toggled(flags[i]);
        var updated := flags[i := flag];
        var start := Start(ToggleSpanName, key, NewValueAttribute, flag.enabled);
        var w := WriteFlags(file, updated, writeOk);
        if w.saved then
          Outcome(Response(200, FlagJson(flag)), w.file, Some(updated), Span(start, StatusOk, None))
        else
          Outcome(Response(500, ErrorJson(SaveFailedMessage)), w.file, Some(updated),
                  Span(start, StatusError, Some(SpanSaveFailedMessage)))
  }

  /**
   `POST /:key/use`: stamp `lastUsedAt` of the first record with the key with
   `now`, open a span reporting the flag's value, save, and answer 200
   whatever the save did.
   */
  function UseFlag(file: FileState, key: string, now: Timestamp, writeOk: bool): (o: Outcome)
    ensures o.response.status in {200, 404, 500}
    ensures o.response.status == 404 <==> Misses(file, key)
    ensures o.response.status == 200 <==> Finds(file, key)
    ensures o.written.Some? <==> Finds(file, key)
    ensures o.written.None? ==> o.file == file && o.span == []
    ensures o.written.Some? ==> ClosedOnce(o.span) && FinalStatus(o.span) == StatusOk
    ensures o.file != file ==> writeOk
  {
    match ReadFlags(file)
    case OtherJson(_) => Outcome(Response(500, ErrorJson(InternalErrorMessage)), file, None, [])
    case FlagArray(flags) =>
      match FirstMatch(flags, key)
      case None => Outcome(Response(404, ErrorJson(NotFoundMessage)), file, None, [])
      case Some(i) =>
        var flag := Stamped(flags[i], now);
        var updated := flags[i := flag];
        var start := Start(UseSpanName, key, ValueAttribute, flag.enabled);
        var w := WriteFlags(file, updated, writeOk);
        Outcome(Response(200, UsageJson(UsageRecordedMessage, flag)), w.file, Some(updated), Span(start, StatusOk, None))
  }
}

=== FILE: store.dfy ===
/**
 The flag file, read and written as a whole (`readFlags` and `writeFlags`).
 The file's bytes and JSON text are abstracted: the file either cannot be
 read, does not parse, or holds a parsed JSON document; the outcome of a
 write is an input.
 */
module FlagStore {
  import opened Flags

  /** A parsed JSON document: an array of flag records, or any other JSON value. */
  datatype Document = FlagArray(flags: seq<Flag>) | OtherJson(text: string)

  /** What the flag file holds from the reader's point of view. */
  datatype FileState = Unreadable | NotJson | Holds(doc: Document)

  /** The outcome of `writeFlags`: its boolean result and the file afterwards. */
  datatype WriteResult = WriteResult(saved: bool, file: FileState)

  /**
   `readFlags`: the parsed document, or an empty array when reading or
   parsing fails. It never fails itself, so an unreadable file and a file
   holding an empty array look the same to every caller.
   */
  function ReadFlags(file: FileState): (doc: Document)
    ensures file.Holds? ==> doc == file.doc
    ensures doc == FlagArray([]) <==> !file.Holds? || file.doc == FlagArray([])
  {
    match file
    case Holds(d) => d
    case _ => FlagArray([])
  }

  /**
   `writeFlags`: overwrites the whole file with the collection when the
   write goes through (`writeOk`), reporting true; otherwise reports false
   and the file keeps its old contents. It never fails itself.
   */
  function WriteFlags(file: FileState, flags: seq<Flag>, writeOk: bool): (w: WriteResult)
    ensures w.saved <==> writeOk
    ensures w.saved ==> ReadFlags(w.file) == FlagArray(flags)
    ensures !w.saved ==> w.file == file
  {
    if writeOk then WriteResult(true, Holds(FlagArray(flags))) else WriteResult(false, file)
  }

  /** Reading back a file after a successful write yields exactly what was written. */
  lemma WriteThenRead(file: FileState, flags: seq<Flag>)
    ensures ReadFlags(WriteFlags(file, flags, true).file) == FlagArray(flags)
  {
  }

  /** Re-saving what was loaded leaves a readable flag file as it was. */
  lemma ReloadSaveIsNoOp(file: FileState)
    requires file.Holds? && file.doc.FlagArray?
    ensures WriteFlags(file, ReadFlags(file).flags, true).file == file
  {
  }

  /**
   Re-saving what was loaded is NOT a no-op on an unreadable or unparseable
   file: the empty fallback overwrites it.
   */
  lemma ReloadSaveClobbersUnreadable(file: FileState)
    requires !file.Holds?
    ensures WriteFlags(file, ReadFlags(file).flags, true).file == Holds(FlagArray([]))
    ensures WriteFlags(file, ReadFlags(file).flags, true).file != file
  {
  }
}

=== FILE: telemetry.dfy ===
/**
 Tracing spans as the request handlers drive them: a span is opened with a
 name, the flag key and one handler-supplied attribute, receives a status
 code, and is ended. The tracing SDK behind it is not modelled; a span is
 the sequence of events the handler issues on it.
 */
module Telemetry {
  import opened Wrappers

  /** Span status code the handlers set on success. */
  const StatusOk: int := 1
  /** Span status code the handlers set on failure. */
  const StatusError: int := 2

  datatype SpanEvent =
    | Start(name: string, flagKey: string, attribute: string, value: bool)
    | SetStatus(code: int, message: Option<string>)
    | End

  /** How many times a status is set in the trace. */
  function StatusCount(trace: seq<SpanEvent>): (n: nat)
    ensures n == 0 <==> forall i :: 0 <= i < |trace| ==> !trace[i].SetStatus?
  {
    if |trace| == 0 then 0
    else (if trace[0].SetStatus? then 1 else 0) + StatusCount(trace[1..])
  }

  /**
   A span that is opened first and only then, gets exactly one status, has
   that status as its next-to-last event and ends with its last event, and
   nowhere before.
   */
  ghost predicate ClosedOnce(trace: seq<SpanEvent>)
  {
    && |trace| >= 3
    && trace[0].Start?
    && (forall i :: 0 < i < |trace| ==> !trace[i].Start?)
    && StatusCount(trace) == 1
    && trace[|trace| - 2].SetStatus?
    && trace[|trace| - 1].End?
    && forall i :: 0 <= i < |trace| - 1 ==> !trace[i].End?
  }

  /** Two status events in a trace are counted twice. */
  lemma {:induction false} TwoStatusesCountTwice(trace: seq<SpanEvent>, k: int, m: int)
    requires 0 <= k < m < |trace|
    requires trace[k].SetStatus? && trace[m].SetStatus?
    ensures StatusCount(trace) >= 2
  {
    if k == 0 {
      assert trace[1..][m - 1].SetStatus?;
    } else {
      TwoStatusesCountTwice(trace[1..], k - 1, m - 1);
    }
  }

  /** In a span closed once, the status event just before the end is the only one. */
  lemma StatusSetOnlyOnce(trace: seq<SpanEvent>)
    requires ClosedOnce(trace)
    ensures forall i :: 0 <= i < |trace| && trace[i].SetStatus? ==> i == |trace| - 2
  {
    forall i | 0 <= i < |trace| - 2 && trace[i].SetStatus?
      ensures false
    {
      TwoStatusesCountTwice(trace, i, |trace| - 2);
    }
  }

  /** The status a closed span ended with. */
  function FinalStatus(trace: seq<SpanEvent>): int
    requires ClosedOnce(trace)
  {
    trace[|trace| - 2].code
  }

  /** The span a handler issues: open it, set one status, end it. */
  function Span(start: SpanEvent, code: int, message: Option<string>): (trace: seq<SpanEvent>)
    requires start.Start?
    ensures ClosedOnce(trace)
    ensures trace[0] == start
    ensures FinalStatus(trace) == code
    ensures trace[|trace| - 2].message == message
  {
    [start, SetStatus(code, message), End]
  }
}

=== FILE: wrappers.dfy ===
/** Optional values, standing in for JavaScript's `undefined`/`null`. */
module Wrappers {

  datatype Option<+T> = None | Some(value: T)
}
